=== FILE: README.md ===
# Telegram feedback relay — a Dafny model of its routing and moderation core

The relay bot lets many Telegram users talk anonymously to one staffed
"feedback" chat. Every user message is forwarded into the feedback chat under
a header naming the sender; a staff reply to a forwarded message is copied
back to the user's chat, threaded under the original message; edits of staff
answers are pushed to the copies; staff can ban and unban users, look up the
id behind a relayed message, and broadcast a message to every registered
user. Two tables hold the state: `users` (one row per Telegram user id, with
a ban flag) and `feedback_messages` (one row per relayed copy: source chat and
message, destination chat and message, and `request`/`response` type).

The model turns every handler except the broadcast into a pure transition
`(store, inbound message, gateway answers) -> Step(store', calls, raised)`:
the committed store, the Bot API calls issued in order, and the exception (if
any) that escaped the handler. The broadcast, which never writes the store,
is a method over the `users` rows the query returned and the gateway's
answers per recipient; it returns the `Run` of rounds it made and why it
stopped. The Bot API is never called: what each call
returned (the message it created, or that it raised) is an input.

Modules (one per concern, all files at the top level):

- `wrappers.dfy` — `Option` and `Result`.
- `numerals.dfy` — `str(int)`, `int(s)` on a digit group, and `"%.32x"`, with
  round-trip lemmas.
- `models.dfy` — the store: `User`, `Link`, `Db`, the key and id invariants
  (`Valid`), the `UPDATE ... SET ban` and `INSERT` operations, and `Find`, the
  link lookup that distinguishes no row, one row and several rows (what
  `one()` and `one_or_none()` see).
- `relay.dfy` — what a handler sees and does: `Message`, `Sender`, `Call`,
  `Fault`, `Step`.
- `identity.dfy` — registration of a sender and the user title.
- `correlation.dfy` — the thread correlation handlers.
- `moderation.dfy` — ban, unban, and `/id`.
- `delivery.dfy` — `send_copy_message` and `broadcast_message`.
- `commands.dfy` — configured private-chat commands and the command menu.
- `uuid_type.dfy` — the portable UUID column type.
- `scenarios.dfy` — properties of handler sequences (round trip, thread
  continuation, edit propagation, ban and unban effects).

Behaviour of the code worth noting:

- A user's reply is looked up first as a link destination (to→from) and only
  then as a link source (from→to).
- The flood-control retry has no cap: `send_copy_message` calls itself again after every RetryAfter.
- A broadcast reports progress only and keeps no per-outcome counts.
- Only a RetryAfter on the progress edit is swallowed. Any other error on
  that edit ends the broadcast.

## Model

| member | source | states |
|---|---|---|
| `Models.UniqueCount` | models.py:14-16 | in a table keyed by `tid`, a registered id occurs in exactly one row and an unregistered one in none |
| `Models.AppendLink` | models.py:29-35 | a new link gets the next auto-increment id, distinct from every existing id; it goes after all other rows with the given coordinates and type; users are untouched and validity is preserved |
| `Models.DuplicateSourcesAllowed` | models.py:32-35 | nothing keys links on their source: the same source can be linked twice in a valid store, after which a lookup by source sees several rows |
| `Models.FindUser` | bot.py:321-322 | the user lookup by id succeeds exactly when some row has that id, and returns a row with that id |
| `Models.SetBan` | bot.py:166-167 | the ban update changes only the ban flag, only on rows whose id matches, keeps every other column and row, and preserves validity |
| `Models.SetBanUnknown` | bot.py:132-134 | updating the ban flag of an id no row carries leaves the store unchanged |
| `Models.SetBanReadBack` | bot.py:186-188 | after the update the registered user's row reads back the new flag |
| `Models.Find` | bot.py:278-287 | a link lookup reports no row exactly when no link matches, several rows exactly when two do, and otherwise the one matching link |
| `Numerals.ParseDecimal` | bot.py:130 | `int` of the captured digit group succeeds exactly on a non-empty string of decimal digits, and its value is below 10 to the number of digits and, written back zero-padded to that width, is the captured text, which fixes it as the numeral's value (so `"007"` reads as 7); the empty capture raises ValueError |
| `Numerals.DecimalRoundTrip` | bot.py:164-169 | reading back the decimal text of an id gives the id, so the id echoed in a confirmation is the id parsed |
| `Identity.RegisterSender` | bot.py:57-79 | no-op in the feedback chat and when the id is already registered; otherwise the sender's row is added after all others, unbanned, with reputation 0, the given date, its names, and `""` for a missing handle; validity is preserved |
| `Identity.RegisterIdempotent` | bot.py:62-70 | registering the same sender twice equals registering once |
| `Identity.RegisterLeavesOneRow` | bot.py:61-79 | after registration outside the feedback chat exactly one row carries the sender's id |
| `Identity.RegisterKeepsBan` | models.py:20-24 | registration never changes whether the sender is banned, because new rows start unbanned |
| `Identity.TitleShowsId` | bot.py:35-40 | the characters right after the names part and `[` of a title read back, as a decimal numeral, as the sender's id (after a `-` when negative), so the id the staff copy into `/ban` is the sender's |
| `Identity.AnonymousTitle` | bot.py:35-40 | a sender without names or handle is titled `"  [<id>] "` |
| `Correlation.MessageOrigin` | bot.py:43-54 | resolves a message to the source of the one link whose destination it is; no link raises NoResultFound, several raise MultipleResultsFound |
| `Correlation.ReplyContext` | bot.py:331-354 | a reply continues under the source of the link whose destination it is; only when there is none, under the destination of the link whose source it is; otherwise under nothing; ambiguity at the lookup that decides raises |
| `Correlation.FeedbackAnswer` | bot.py:274-299 | a non-reply or a reply to an untracked message does nothing; otherwise exactly one copy is sent to the origin chat threaded under the origin message, and one response link from the staff message to the copy is added only when the copy returned |
| `Correlation.FeedbackRequest` | bot.py:315-371 | the sender is registered first; a banned sender gets no calls and no link; an ambiguous reply lookup raises MultipleResultsFound before any call; otherwise the header is threaded under the reply context, the message is forwarded, and exactly one request link is added, only when both calls returned; a failed header or forward raises and adds no link |
| `Correlation.HandleEditedMessage` | bot.py:92-121 | the store never changes; with no link from the edited message nothing happens; with one, exactly one edit goes to the linked copy: text for text messages, caption otherwise |
| `Moderation.Unban` | bot.py:129-135 | an empty id raises ValueError; an id beyond the signed 64-bit `tid` column makes the update fail with nothing committed or sent; otherwise only that id's ban flag is cleared, then the confirmation is sent, and the update stands even if the reply raises |
| `Moderation.BanById` | bot.py:163-169 | an empty id raises ValueError; an id beyond the signed 64-bit `tid` column makes the update fail with nothing committed or sent; otherwise the confirmation is sent and only that id's ban flag is set, rolled back when the reply raises |
| `Moderation.SetBanByReply` | bot.py:144-189 | `/ban` or `/unban` as a reply resolves the origin chat; an untracked reply changes nothing and sends nothing; otherwise only that chat id's flag changes, rolled back if the confirmation raises |
| `Moderation.GetId` | bot.py:200-207 | answers with the origin chat id of the replied message, or does nothing for an untracked one; the store never changes |
| `Delivery.SendCopy` | bot.py:210-237 | settles exactly when some answer is not RetryAfter; attempts = leading RetryAfter answers + 1; the result is true exactly when the deciding answer is Delivered |
| `Delivery.FailuresAreFinal` | bot.py:220-233 | BotBlocked, ChatNotFound, UserDeactivated and any other API error give false after one attempt |
| `Delivery.RetriesOnlyDelay` | bot.py:224-229 | RetryAfter answers in front of an outcome add one attempt each and change nothing else |
| `Delivery.Broadcast` | bot.py:246-257 | round i targets the i-th user in the order the query returns the rows (there is no `ORDER BY`), after editing progress to `Рассылка i+1/n`, and makes one `send_copy_message` unless its edit raised; a RetryAfter on the edit does not stop the loop; a started run never ends as a start failure, and completes exactly when every user was reached; with unique ids no user is targeted twice |
| `Commands.FindCommand` | bot.py:382-387 | a command is found exactly when the table has an entry with that name, and then it is that entry's spec |
| `Commands.HandleCommand` | bot.py:377-398 | the sender is registered; an unknown command gets the fixed answer; a known one is replied to with its text (previews on and Markdown by default) and, only if that reply returned, the feedback chat is told |
| `Commands.MenuCommands` | bot.py:401-405 | the menu holds exactly the entries whose `set_command` is not false, with their descriptions; such an entry without a description raises KeyError |
| `Commands.DefaultTableBehaviour` | config.py:9-15 | with the shipped table the menu is empty and `/start` is a known command |
| `UuidType.StoredTextFitsColumn` | db_utils.py:29-46 | off PostgreSQL the column is `CHAR(32)`, and every value bound to it is text of exactly that length |
| `UuidType.PowBound` | db_utils.py:33 | 32 hexadecimal digits hold exactly the 128-bit values |
| `UuidType.Hex32` | db_utils.py:44-46 | the stored text is exactly 32 lower-case hex digits whose value is the UUID's integer |
| `UuidType.ParseUuid` | db_utils.py:43 | parsing succeeds exactly when the hyphen-free text is 32 hex digits, and yields their value |
| `UuidType.ProcessBindParam` | db_utils.py:36-46 | NULL passes through; PostgreSQL gets `str(value)`; elsewhere a UUID is written as 32 lower-case hex digits of its value, and a string is written only if it parses |
| `UuidType.ProcessResultValue` | db_utils.py:48-55 | NULL passes through, a UUID object comes back unchanged, and a string is parsed |
| `UuidType.StringAndObjectAgree` | db_utils.py:42-46 | a string and the UUID it parses to are stored identically |
| `UuidType.RoundTrip` | db_utils.py:43-53 | off PostgreSQL, reading back the stored text of a UUID gives the UUID |
| `UuidType.StoredRoundTrip` | db_utils.py:46-53 | a well-formed stored value survives a read followed by a write unchanged |
| `UuidType.ParseCanonical` | db_utils.py:39-40 | the hyphenated `str(uuid)` form parses back to the same UUID |
| `Scenarios.RequestThenAnswer` | bot.py:356-371 | a relayed user message answered by staff in reply to its forward is copied back to the user's chat, threaded under the original message, and linked as a response |
| `Scenarios.ReplyToAnswerContinuesThread` | bot.py:333-343 | a user's reply to a copied staff answer continues the thread under that staff message |
| `Scenarios.EditOfAnswerReachesCopy` | bot.py:94-121 | editing a staff answer pushes the new text or caption to the user's copy and leaves the store alone |
| `Scenarios.BanSilencesSender` | bot.py:316-329 | after a registered user is banned, each of their later messages yields no calls and no store change |
| `Scenarios.UnbanRestoresRelay` | bot.py:129-135 | after a registered user is unbanned, their next message is forwarded and linked again |
| `Scenarios.BanBeforeRegistrationIsLost` | bot.py:163-169 | banning an id that never wrote changes nothing, and that user's first message is relayed |

## Left out

- Dispatch is not modelled: aiogram's handler selection, the `chat_id`/`commands`/`content_types` filters, `is_chat_admin` and the regular-expression command filters. Each handler is modelled as if the dispatcher had already chosen it.
- The `/chat_id` handler and the `IsPrivate` filter are not modelled. Neither touches the store or the link table.
- Concurrent handling is not modelled: each handler runs alone, as one step. In the code, handlers for different updates interleave at every `await`. Two first messages of one new user can both pass the check in `add_user_to_db_if_not_exists`. The second INSERT then fails on the `tid` key, and that message is dropped with an IntegrityError. `Identity.RegisterIdempotent` covers only registrations made one after the other.
- The 0.1 s broadcast pacing and the RetryAfter sleep durations are timing only. They are not modelled.
- The engine, `session_scope` and `prepare_db` are not modelled. Each handler is an atomic transition, with rollback where a call inside the transaction raises.
- `datetime.now` is a parameter (`now`). Logging is not modelled. Message entities and HTML/Markdown rendering are formatting only.
- The `config.py` and `utils.py` environment reading is not modelled. The command table is a parameter; `DefaultTable` mirrors the shipped one.
- Not every API failure is modelled. Edits in `handle_edited_message`, the answer of `/id` and the feedback-chat notice of a command are assumed to return. Their failure would only add an exception; the store and the calls issued would be the same.
- The broadcast's "starting" answer is modelled only as succeeding or raising. The model does not carry the message that answer returns.
- `Delivery.SendCopy` takes a finite list of gateway answers. A list made only of RetryAfter ends as `Unsettled`, where the source would keep retrying forever. `Delivery.Broadcast` stops its run there (`Stalled`).
- `Numerals.ParseDecimal` accepts only ASCII digits. Python's `int` also accepts whitespace, signs, underscores and other Unicode digits, but the `[0-9]*` capture never passes those.
- UuidType.ParseUuid: models hyphen removal and the check for 32 hex digits only. The model rejects several inputs that `uuid.UUID` accepts:
  - text containing `urn:` or `uuid:`: every occurrence is removed, not only a prefix, before the length check;
  - text with any run of `{` or `}` at either end, paired or not: these are stripped before the length check;
  - a 32-character remainder that `int(hex, 16)` still accepts: one with a `0x` prefix, surrounding whitespace, a `+` sign, underscores, or non-ASCII digits.
- On PostgreSQL the driver returns UUID objects. That driver behaviour is not modelled.
- Commands.MenuCommands: states which commands the menu holds but not that they keep table order, because that needs an index correspondence the contract does not spell out.
- Identity.RegisterSender: does not model the driver refusing an id beyond the signed 64-bit `tid` column. Telegram user ids fit that range, so the insert cannot hit it.
- Moderation.SetBanByReply: the ids it updates come from the link table, so they always fit the `BIGINT` range. The range failure is modelled only for typed ids (`Unban`, `BanById`).
- The `reputation` column is never changed by the code. The model only records its default.

=== FILE: commands.dfy ===
/**
 * The configurable private-chat commands: answering `/<command>` from the
 * command table, and the command menu the bot registers at start-up.
 */
module Commands {
  import opened Wrappers
  import opened Models
  import opened Relay
  import opened Identity

  /**
   * One entry of the command table. `text` and `description` are keys the
   * code indexes directly; the other three are read with a default.
   */
  datatype CommandSpec = CommandSpec(
    text: Option<string>,
    description: Option<string>,
    setCommand: Option<bool>,
    disablePreview: Option<bool>,
    parseMode: Option<string>)

  datatype Entry = Entry(name: string, spec: CommandSpec)

  /** The table is a dictionary: its names are distinct and its order is insertion order. */
  predicate DistinctNames(table: seq<Entry>) {
    forall i, j :: 0 <= i < j < |table| ==> table[i].name != table[j].name
  }

  /** `COMMANDS.get(name)`. */
  function FindCommand(table: seq<Entry>, name: string): (r: Option<CommandSpec>)
    ensures r.None? <==> forall i :: 0 <= i < |table| ==> table[i].name != name
    ensures r.Some? ==> exists i :: 0 <= i < |table| && table[i] == Entry(name, r.value)
    ensures DistinctNames(table) ==> forall i :: 0 <= i < |table| && table[i].name == name ==> r == Some(table[i].spec)
  {
    if |table| == 0 then None
    else if table[0].name == name then Some(table[0].spec)
    else
      var r := FindCommand(table[1..], name);
      assert forall i :: 1 <= i < |table| ==> table[i] == table[1..][i - 1];
      r
  }

  const UnknownCommandText := "Не известная команда"

  /** Python's `text[1:]`: everything after the leading slash. */
  function CommandName(text: string): string {
    if |text| >= 1 then text[1..] else ""
  }

  /** The notice the feedback chat gets when a user runs a known command. */
  function CommandNotice(name: string, sender: Sender): string {
    "Пользователь отправил команду /" + name + "\n\n" + UserTitle(sender)
  }

  /**
   * `handle_command`: `/<command>` in a private chat. The sender is
   * registered; an unknown command gets a fixed answer; a known one gets its
   * text as a reply (link previews on and Markdown unless the entry says
   * otherwise) and the feedback chat is told. `replied` says whether the
   * first call returned.
   */
  function HandleCommand(db: Db, msg: Ref, sender: Sender, text: string, table: seq<Entry>,
                         feedbackChat: int, now: Timestamp, replied: bool): (r: Step)
    ensures r.db == RegisterSender(db, msg.chat, sender, feedbackChat, now)
    ensures FindCommand(table, CommandName(text)).None? ==>
      && r.calls == [Answer(msg.chat, UnknownCommandText)]
      && (replied <==> r.raised.None?)
    ensures FindCommand(table, CommandName(text)).Some? ==> var spec := FindCommand(table, CommandName(text)).value;
      && (spec.text.None? ==> r.calls == [] && r.raised == Some(KeyError))
      && (spec.text.Some? ==>
            && |r.calls| >= 1
            && r.calls[0] == ReplyFormatted(msg, spec.text.value, spec.disablePreview.GetOr(false), spec.parseMode.GetOr("MARKDOWN"))
            && (replied ==> r.calls == [r.calls[0], SendMessage(feedbackChat, CommandNotice(CommandName(text), sender), None)] && r.raised.None?)
            && (!replied ==> r.calls == [r.calls[0]] && r.raised == Some(ApiError)))
    ensures Valid(db) ==> Valid(r.db)
  {
    var reg := RegisterSender(db, msg.chat, sender, feedbackChat, now);
    var name := CommandName(text);
    match FindCommand(table, name)
    case None => Step(reg, [Answer(msg.chat, UnknownCommandText)], if replied then None else Some(ApiError))
    case Some(spec) =>
      if spec.text.None? then Step(reg, [], Some(KeyError))
      else
        var reply := ReplyFormatted(msg, spec.text.value, spec.disablePreview.GetOr(false), spec.parseMode.GetOr("MARKDOWN"));
        if !replied then Step(reg, [reply], Some(ApiError))
        else Step(reg, [reply, SendMessage(feedbackChat, CommandNotice(name, sender), None)], None)
  }

  /** An entry goes into the command menu unless it says `set_command: False`. */
  predicate InMenu(e: Entry) {
    e.spec.setCommand.GetOr(true)
  }

  /**
   * `set_commands`: the menu lists the entries that go into it, in table
   * order; an entry in the menu without a description raises KeyError and
   * nothing is registered.
   */
  function MenuCommands(table: seq<Entry>): (r: Result<seq<BotCommand>, Fault>)
    ensures r.Failure? <==> exists i :: 0 <= i < |table| && InMenu(table[i]) && table[i].spec.description.None?
    ensures r.Failure? ==> r.error == KeyError
    ensures r.Success? ==> |r.value| <= |table|
    ensures r.Success? ==> forall c :: c in r.value <==>
      exists i :: 0 <= i < |table| && InMenu(table[i]) && c == BotCommand(table[i].name, table[i].spec.description.value)
  {
    if |table| == 0 then Success([])
    else
      var e := table[0];
      var rest := MenuCommands(table[1..]);
      assert forall i :: 1 <= i < |table| ==> table[i] == table[1..][i - 1];
      if InMenu(e) && e.spec.description.None? then Failure(KeyError)
      else if rest.Failure? then rest
      else if InMenu(e) then Success([BotCommand(e.name, e.spec.description.value)] + rest.value)
      else rest
  }

  /** The call `set_commands` makes, or the exception that prevents it. */
  function SetCommands(table: seq<Entry>): (r: Result<Call, Fault>)
    ensures r.Success? <==> MenuCommands(table).Success?
    ensures r.Success? ==> r.value == SetMyCommands(MenuCommands(table).value)
  {
    match MenuCommands(table)
    case Success(cmds) => Success(SetMyCommands(cmds))
    case Failure(f) => Failure(f)
  }

  /** The shipped table: one `/start` command, kept out of the menu. */
  function DefaultTable(startText: string): seq<Entry> {
    [Entry("start", CommandSpec(Some(startText), Some(""), Some(false), None, None))]
  }

  /** With the shipped table the menu is empty, and `/start` answers with its text. */
  lemma DefaultTableBehaviour(startText: string)
    ensures MenuCommands(DefaultTable(startText)) == Success([])
    ensures FindCommand(DefaultTable(startText), CommandName("/start")) == Some(DefaultTable(startText)[0].spec)
  {
    assert CommandName("/start") == "start";
  }
}

=== FILE: correlation.dfy ===
/**
 * Thread correlation: how the relay finds, for an inbound message, the
 * relayed message it continues, and how it records the copies it makes.
 */
module Correlation {
  import opened Wrappers
  import opened Models
  import opened Relay
  import opened Identity

  /**
   * `get_message_origin`: the source of the one link whose destination is
   * `at`; `Query.one()` raises when there is no such link or more than one.
   */
  function MessageOrigin(links: seq<Link>, at: Ref): (r: Result<Ref, Fault>)
    ensures r.Success? <==> exists i :: OnlyHitAt(links, To, at, i)
    ensures forall i :: OnlyHitAt(links, To, at, i) ==> r == Success(links[i].src)
    ensures r == Failure(NoResultFound) <==> NoHit(links, To, at)
    ensures r == Failure(MultipleResultsFound) <==> SeveralHits(links, To, at)
  {
    match Find(links, To, at)
    case NoRow => Failure(NoResultFound)
    case ManyRows => Failure(MultipleResultsFound)
    case OneRow(l) => Success(l.src)
  }

  /**
   * The feedback-chat message a user's reply continues. The replied message
   * is first looked up as the destination of a link, whose source is then the
   * staff message; only when there is no such link is it looked up as the
   * source of a link, whose destination is then the forwarded copy.
   */
  function ReplyContext(links: seq<Link>, chat: int, replyTo: Option<int>): (r: Result<Option<int>, Fault>)
    ensures replyTo.None? ==> r == Success(None)
    ensures replyTo.Some? ==> forall i :: OnlyHitAt(links, To, Ref(chat, replyTo.value), i) ==>
      r == Success(Some(links[i].src.msg))
    ensures replyTo.Some? && NoHit(links, To, Ref(chat, replyTo.value)) ==>
      forall i :: OnlyHitAt(links, From, Ref(chat, replyTo.value), i) ==> r == Success(Some(links[i].dst.msg))
    ensures replyTo.Some? && NoHit(links, To, Ref(chat, replyTo.value)) && NoHit(links, From, Ref(chat, replyTo.value))
      ==> r == Success(None)
    ensures r.Failure? <==> (
      && replyTo.Some?
      && (|| SeveralHits(links, To, Ref(chat, replyTo.value))
          || (NoHit(links, To, Ref(chat, replyTo.value)) && SeveralHits(links, From, Ref(chat, replyTo.value)))))
    ensures r.Failure? ==> r.error == MultipleResultsFound
  {
    if replyTo.None? then Success(None)
    else
      var at := Ref(chat, replyTo.value);
      match Find(links, To, at)
      case OneRow(l) => Success(Some(l.src.msg))
      case ManyRows => Failure(MultipleResultsFound)
      case NoRow =>
        match Find(links, From, at)
        case OneRow(l) => Success(Some(l.dst.msg))
        case ManyRows => Failure(MultipleResultsFound)
        case NoRow => Success(None)
  }

  /**
   * `feedback_answer`: a staff message in the feedback chat that replies to
   * a relayed message is copied back to that message's origin, threaded
   * under it, and the copy is linked as a response. `copied` is the message
   * the copy call returned, or `None` when the call raised.
   */
  function FeedbackAnswer(db: Db, msg: Message, copied: Option<Ref>): (r: Step)
    ensures r.db.users == db.users
    ensures msg.replyTo.None? ==> r == Step(db, [], None)
    ensures msg.replyTo.Some? && NoHit(db.links, To, Ref(msg.at.chat, msg.replyTo.value)) ==> r == Step(db, [], None)
    ensures msg.replyTo.Some? && SeveralHits(db.links, To, Ref(msg.at.chat, msg.replyTo.value))
      ==> r == Step(db, [], Some(MultipleResultsFound))
    ensures msg.replyTo.Some? ==> forall i :: OnlyHitAt(db.links, To, Ref(msg.at.chat, msg.replyTo.value), i) ==>
      r.calls == [Copy(msg.at, db.links[i].src.chat, Some(db.links[i].src.msg))]
    ensures r.db != db <==>
      msg.replyTo.Some? && (exists i :: OnlyHitAt(db.links, To, Ref(msg.at.chat, msg.replyTo.value), i)) && copied.Some?
    ensures r.db != db ==> copied.Some? && LinkAdded(db, r.db, msg.at, copied.value, Response) && r.raised.None?
    ensures r.db == db && r.calls != [] ==> r.raised == Some(ApiError)
    ensures Valid(db) ==> Valid(r.db)
  {
    if msg.replyTo.None? then Step(db, [], None)
    else
      match Find(db.links, To, Ref(msg.at.chat, msg.replyTo.value))
      case NoRow => Step(db, [], None)
      case ManyRows => Step(db, [], Some(MultipleResultsFound))
      case OneRow(l) =>
        var call := Copy(msg.at, l.src.chat, Some(l.src.msg));
        if copied.None? then Step(db, [call], Some(ApiError))
        else Step(AppendLink(db, msg.at, copied.value, Response), [call], None)
  }

  /** The notice the staff sees above a forwarded message. */
  function Header(sender: Sender): string {
    "Новое сообщение от " + UserTitle(sender)
  }

  /**
   * `feedback_request`: a user's message is relayed to the feedback chat.
   * The sender is registered first; a banned sender's message is dropped
   * silently. Otherwise a header naming the sender is sent, threaded under
   * the message the reply continues, the message is forwarded, and the
   * forward is linked as a request. `headerSent` says whether the header
   * call returned; `forwarded` is the forwarded message, `None` if the call
   * raised.
   */
  function FeedbackRequest(db: Db, msg: Message, feedbackChat: int, now: Timestamp,
                           headerSent: bool, forwarded: Option<Ref>): (r: Step)
    ensures var reg := RegisterSender(db, msg.at.chat, msg.sender, feedbackChat, now);
      && r.db.users == reg.users
      && (r.db != reg ==> forwarded.Some? && LinkAdded(reg, r.db, msg.at, forwarded.value, Request) && r.raised.None?)
      && (!HasUser(reg.users, msg.sender.id) ==> r == Step(reg, [], Some(AttributeError)))
      && (IsBanned(reg.users, msg.sender.id) ==> r == Step(reg, [], None))
      && (r.db != reg <==>
            && HasUser(reg.users, msg.sender.id) && !IsBanned(reg.users, msg.sender.id)
            && ReplyContext(reg.links, msg.at.chat, msg.replyTo).Success?
            && headerSent && forwarded.Some?)
    ensures var reg := RegisterSender(db, msg.at.chat, msg.sender, feedbackChat, now);
      var context := ReplyContext(reg.links, msg.at.chat, msg.replyTo);
      HasUser(reg.users, msg.sender.id) && !IsBanned(reg.users, msg.sender.id) && context.Success? ==>
        && |r.calls| >= 1
        && r.calls[0] == SendMessage(feedbackChat, Header(msg.sender), context.value)
        && (headerSent ==> r.calls == [r.calls[0], Forward(msg.at, feedbackChat)])
        && (!headerSent ==> r.calls == [r.calls[0]] && r.raised == Some(ApiError))
        && (headerSent && forwarded.None? ==> r.db == reg && r.raised == Some(ApiError))
    ensures var reg := RegisterSender(db, msg.at.chat, msg.sender, feedbackChat, now);
      var context := ReplyContext(reg.links, msg.at.chat, msg.replyTo);
      HasUser(reg.users, msg.sender.id) && !IsBanned(reg.users, msg.sender.id) && context.Failure? ==>
        r == Step(reg, [], Some(MultipleResultsFound))
    ensures Valid(db) ==> Valid(r.db)
  {
    var reg := RegisterSender(db, msg.at.chat, msg.sender, feedbackChat, now);
    match FindUser(reg.users, msg.sender.id)
    case None => Step(reg, [], Some(AttributeError))
    case Some(u) =>
      if u.ban then Step(reg, [], None)
      else
        match ReplyContext(reg.links, msg.at.chat, msg.replyTo)
        case Failure(f) => Step(reg, [], Some(f))
        case Success(thread) =>
          var header := SendMessage(feedbackChat, Header(msg.sender), thread);
          if !headerSent then Step(reg, [header], Some(ApiError))
          else
            var forward := Forward(msg.at, feedbackChat);
            if forwarded.None? then Step(reg, [header, forward], Some(ApiError))
            else Step(AppendLink(reg, msg.at, forwarded.value, Request), [header, forward], None)
  }

  /** The edit that pushes `content` onto the copy at `target`. */
  function EditFor(target: Ref, content: Content): Call {
    if content.Text? then EditText(target, content.text) else EditCaption(target, content.caption)
  }

  /**
   * `handle_edited_message`: an edit in the feedback chat is pushed to the
   * copy linked from the edited message: its text for a text message, its
   * caption for anything else. Edits never touch the store.
   */
  function HandleEditedMessage(db: Db, msg: Message): (r: Step)
    ensures r.db == db
    ensures NoHit(db.links, From, msg.at) ==> r.calls == [] && r.raised.None?
    ensures SeveralHits(db.links, From, msg.at) ==> r.calls == [] && r.raised == Some(MultipleResultsFound)
    ensures forall i :: OnlyHitAt(db.links, From, msg.at, i) ==> (
      && r.raised.None? && |r.calls| == 1
      && (msg.content.Text? ==> r.calls[0] == EditText(db.links[i].dst, msg.content.text))
      && (msg.content.Media? ==> r.calls[0] == EditCaption(db.links[i].dst, msg.content.caption)))
  {
    match Find(db.links, From, msg.at)
    case NoRow => Step(db, [], None)
    case ManyRows => Step(db, [], Some(MultipleResultsFound))
    case OneRow(l) => Step(db, [EditFor(l.dst, msg.content)], None)
  }
}

=== FILE: delivery.dfy ===
/**
 * Delivery of one message copy with flood-control retry, and the broadcast
 * of a message to every registered user.
 */
module Delivery {
  import opened Wrappers
  import opened Numerals
  import opened Models

  /** How the Bot API answers one attempt to copy a message to a user. */
  datatype CopyAnswer =
    | Delivered
    | RetryAfter
    | BotBlocked
    | ChatNotFound
    | UserDeactivated
    | OtherApiError

  /**
   * What `send_copy_message` ends with: its return value and the number of
   * attempts it made, or `Unsettled` when the gateway's answers ran out while
   * it was still being told to retry.
   */
  datatype Delivery = Settled(ok: bool, attempts: nat) | Unsettled

  /**
   * `send_copy_message`, over the answers the gateway gives to successive
   * attempts: every RetryAfter leads to another attempt; the first other
   * answer decides, and only Delivered counts as success.
   */
  function SendCopy(answers: seq<CopyAnswer>): (d: Delivery)
    ensures d.Settled? <==> exists i :: 0 <= i < |answers| && answers[i] != RetryAfter
    ensures d.Settled? ==>
      && 1 <= d.attempts <= |answers|
      && (forall i :: 0 <= i < d.attempts - 1 ==> answers[i] == RetryAfter)
      && answers[d.attempts - 1] != RetryAfter
      && (d.ok <==> answers[d.attempts - 1] == Delivered)
  {
    if |answers| == 0 then Unsettled
    else if answers[0] != RetryAfter then Settled(answers[0] == Delivered, 1)
    else
      match SendCopy(answers[1..])
      case Unsettled => Unsettled
      case Settled(ok, n) =>
        assert forall i :: 1 <= i < n + 1 ==> answers[i] == answers[1..][i - 1];
        Settled(ok, n + 1)
  }

  /** Every failure other than RetryAfter is final: false after one attempt. */
  lemma FailuresAreFinal(answers: seq<CopyAnswer>)
    requires |answers| > 0
    requires answers[0] in {BotBlocked, ChatNotFound, UserDeactivated, OtherApiError}
    ensures SendCopy(answers) == Settled(false, 1)
  {
  }

  /** RetryAfter answers in front of an outcome only add attempts. */
  lemma {:induction false} RetriesOnlyDelay(k: nat, rest: seq<CopyAnswer>)
    ensures var d := SendCopy(seq(k, _ => RetryAfter) + rest);
      && (SendCopy(rest).Unsettled? ==> d.Unsettled?)
      && (SendCopy(rest).Settled? ==> d == Settled(SendCopy(rest).ok, SendCopy(rest).attempts + k))
  {
    var s := seq(k, _ => RetryAfter) + rest;
    if k == 0 {
      assert s == rest;
    } else {
      assert s[0] == RetryAfter;
      assert s[1..] == seq(k - 1, _ => RetryAfter) + rest;
      RetriesOnlyDelay(k - 1, rest);
    }
  }

  /** How the Bot API answers the edit of the progress message. */
  datatype EditAnswer = Edited | EditRetryAfter | EditFailed

  /** The gateway's answers for one recipient of a broadcast. */
  datatype Plan = Plan(edit: EditAnswer, copies: seq<CopyAnswer>)

  /**
   * One iteration of the broadcast loop: the recipient, the progress text the
   * status message was edited to, how that edit went, and, when the loop got
   * that far, what `send_copy_message` ended with.
   */
  datatype Round = Round(target: int, progress: string, edit: EditAnswer, delivery: Option<Delivery>)

  /** Why a broadcast run stopped. */
  datatype RunEnd = Completed | StartFailed | EditRaised | Stalled

  datatype Run = Run(rounds: seq<Round>, end: RunEnd)

  /** The status line before the `done`-th of `total` sends. */
  function ProgressText(done: nat, total: nat): string {
    "Рассылка " + Decimal(done) + "/" + Decimal(total)
  }

  /** The loop moves on past a round: its edit did not raise and its delivery settled. */
  predicate MovesOn(round: Round) {
    round.edit != EditFailed && round.delivery.Some? && round.delivery.value.Settled?
  }

  /**
   * `broadcast_message`: after the "starting" answer (`started` says whether
   * it returned), the i-th user (counting from 0), in the order the query
   * returns the rows, gets a progress edit `"Рассылка i+1/n"` and then one
   * `send_copy_message`. A RetryAfter on the edit is swallowed; any other
   * edit error ends the run; a user whose delivery never settles holds the
   * run there. `plans[i]` holds the answers for `users[i]`.
   */
  method Broadcast(users: seq<User>, started: bool, plans: seq<Plan>) returns (run: Run)
    requires |plans| == |users|
    ensures !started ==> run == Run([], StartFailed)
    ensures started ==> run.end != StartFailed
    ensures |run.rounds| <= |users|
    ensures forall i :: 0 <= i < |run.rounds| ==>
      && run.rounds[i].target == users[i].tid
      && run.rounds[i].progress == ProgressText(i + 1, |users|)
      && run.rounds[i].edit == plans[i].edit
      && (plans[i].edit == EditFailed ==> run.rounds[i].delivery.None?)
      && (plans[i].edit != EditFailed ==> run.rounds[i].delivery == Some(SendCopy(plans[i].copies)))
    ensures forall i :: 0 <= i < |run.rounds| - 1 ==> MovesOn(run.rounds[i])
    ensures UniqueTids(users) ==>
      forall i, j :: 0 <= i < j < |run.rounds| ==> run.rounds[i].target != run.rounds[j].target
    ensures run.end == Completed <==> started && |run.rounds| == |users| && forall i :: 0 <= i < |users| ==> MovesOn(run.rounds[i])
    ensures run.end == EditRaised ==> |run.rounds| > 0 && run.rounds[|run.rounds| - 1].edit == EditFailed
    ensures run.end == Stalled ==> |run.rounds| > 0 && run.rounds[|run.rounds| - 1].delivery == Some(Unsettled)
  {
    if !started {
      return Run([], StartFailed);
    }
    var rounds: seq<Round> := [];
    var i := 0;
    while i < |users|
      invariant 0 <= i <= |users|
      invariant |rounds| == i
      invariant forall k :: 0 <= k < i ==>
        && rounds[k].target == users[k].tid
        && rounds[k].progress == ProgressText(k + 1, |users|)
        && rounds[k].edit == plans[k].edit
        && rounds[k].delivery == Some(SendCopy(plans[k].copies))
      invariant forall k :: 0 <= k < i ==> MovesOn(rounds[k])
    {
      var progress := ProgressText(i + 1, |users|);
      var edit := plans[i].edit;
      if edit == EditFailed {
        return Run(rounds + [Round(users[i].tid, progress, edit, None)], EditRaised);
      }
      var delivery := SendCopy(plans[i].copies);
      rounds := rounds + [Round(users[i].tid, progress, edit, Some(delivery))];
      if delivery.Unsettled? {
        return Run(rounds, Stalled);
      }
      i := i + 1;
    }
    return Run(rounds, Completed);
  }
}

=== FILE: identity.dfy ===
/**
 * The identity side of the relay: registering the author of an inbound
 * message, and the one-line title that names a user to the staff.
 */
module Identity {
  import opened Wrappers
  import opened Numerals
  import opened Models
  import opened Relay

  /** Python truthiness of an optional string: present and non-empty. */
  predicate Filled(s: Option<string>) {
    s.Some? && s.value != ""
  }

  /** The row registration inserts for `sender`; a missing handle is stored as `""`. */
  function RowFor(sender: Sender, now: Timestamp): User {
    NewUser(sender.id, sender.firstName, sender.lastName,
            if Filled(sender.username) then sender.username else Some(""), now)
  }

  /**
   * Register the author of a message seen in `chat`, unless `chat` is the
   * feedback chat: insert a row for the sender's id when no row has it yet.
   */
  function RegisterSender(db: Db, chat: int, sender: Sender, feedbackChat: int, now: Timestamp): (r: Db)
    ensures chat == feedbackChat ==> r == db
    ensures HasUser(db.users, sender.id) ==> r == db
    ensures chat != feedbackChat ==> HasUser(r.users, sender.id)
    ensures r.links == db.links && r.nextLinkId == db.nextLinkId
    ensures |db.users| <= |r.users| <= |db.users| + 1 && r.users[..|db.users|] == db.users
    ensures |r.users| == |db.users| + 1 ==> var u := r.users[|db.users|];
      && u.tid == sender.id && !u.ban && u.reputation == 0 && u.date == now
      && u.firstName == sender.firstName && u.lastName == sender.lastName
      && (Filled(sender.username) ==> u.username == sender.username)
      && (!Filled(sender.username) ==> u.username == Some(""))
    ensures Valid(db) ==> Valid(r)
  {
    if chat == feedbackChat then db
    else if FindUser(db.users, sender.id).Some? then db
    else
      var r := db.(users := db.users + [RowFor(sender, now)]);
      assert r.users[..|db.users|] == db.users;
      assert HasUser(r.users, sender.id) by {
        assert r.users[|db.users|].tid == sender.id;
      }
      r
  }

  /** Registering the same sender twice is the same as registering once. */
  lemma RegisterIdempotent(db: Db, chat: int, sender: Sender, feedbackChat: int, now: Timestamp, later: Timestamp)
    ensures var once := RegisterSender(db, chat, sender, feedbackChat, now);
            RegisterSender(once, chat, sender, feedbackChat, later) == once
  {
  }

  /** After registration outside the feedback chat, exactly one row carries the sender's id. */
  lemma RegisterLeavesOneRow(db: Db, chat: int, sender: Sender, feedbackChat: int, now: Timestamp)
    requires Valid(db)
    requires chat != feedbackChat
    ensures CountTid(RegisterSender(db, chat, sender, feedbackChat, now).users, sender.id) == 1
  {
    var r := RegisterSender(db, chat, sender, feedbackChat, now);
    UniqueCount(r.users, sender.id);
  }

  /** Registration never changes whether the sender is banned: a new row starts unbanned. */
  lemma RegisterKeepsBan(db: Db, chat: int, sender: Sender, feedbackChat: int, now: Timestamp)
    ensures IsBanned(RegisterSender(db, chat, sender, feedbackChat, now).users, sender.id)
      == IsBanned(db.users, sender.id)
  {
    if chat != feedbackChat && !HasUser(db.users, sender.id) {
      FindUserAppend(db.users, RowFor(sender, now), sender.id);
    }
  }

  /** `first_name + " "` when the first name is set, and nothing otherwise. */
  function NamePart(name: Option<string>): string {
    if Filled(name) then name.value + " " else ""
  }

  /** `" @" + username` when the handle is set, and nothing otherwise. */
  function HandlePart(username: Option<string>): string {
    if Filled(username) then " @" + username.value else ""
  }

  /** `s` contains `part` starting at position `k`. */
  predicate OccursAt(part: string, s: string, k: int) {
    0 <= k && k + |part| <= |s| && s[k..k + |part|] == part
  }

  lemma Middle(a: string, b: string, c: string)
    ensures OccursAt(a, a + b + c, 0)
    ensures OccursAt(b, a + b + c, |a|)
    ensures OccursAt(c, a + b + c, |a| + |b|)
  {
    assert (a + b + c)[..|a|] == a;
    assert (a + b + c)[|a|..|a| + |b|] == b;
    assert (a + b + c)[|a| + |b|..] == c;
  }

  /** The names part of a title: each present name with its space, then two spaces. */
  function Names(sender: Sender): string {
    NamePart(sender.firstName) + " " + NamePart(sender.lastName) + " "
  }

  /**
   * `get_user_title`: the names part, then the id in brackets, then a space
   * and the `@handle` when the handle is set. The id always shows, in
   * brackets right after the names; the title always ends with `"] "`
   * followed by the handle part.
   */
  function UserTitle(sender: Sender): (r: string)
    ensures OccursAt(Names(sender) + "[", r, 0)
    ensures OccursAt(IntText(sender.id), r, |Names(sender)| + 1)
    ensures OccursAt("] " + HandlePart(sender.username), r, |Names(sender)| + 1 + |IntText(sender.id)|)
    ensures |r| == |Names(sender)| + |IntText(sender.id)| + 3 + |HandlePart(sender.username)|
  {
    var a := Names(sender) + "[";
    var b := IntText(sender.id);
    var c := "] " + HandlePart(sender.username);
    Middle(a, b, c);
    a + b + c
  }

  /** Wherever `str(i)` occurs in a text, the characters there read back as `i`. */
  lemma IntTextReadsBack(i: int, t: string, k: int)
    requires OccursAt(IntText(i), t, k)
    ensures i >= 0 ==> ParseDecimal(t[k..k + |IntText(i)|]) == Some(i)
    ensures i < 0 ==> t[k] == '-' && ParseDecimal(t[k + 1..k + |IntText(i)|]) == Some(-i)
  {
    var digits := IntText(i);
    if i >= 0 {
      DecimalRoundTrip(i);
    } else {
      assert t[k] == digits[0];
      assert t[k + 1..k + |digits|] == digits[1..];
      DecimalRoundTrip(-i);
    }
  }

  /**
   * The id in a title can be read back: the characters after the names part
   * and `[` are the decimal numeral of the id (after a `-` for a negative
   * one), which is what the staff type after `/ban` or `/unban`.
   */
  lemma TitleShowsId(sender: Sender)
    ensures var t, k, n := UserTitle(sender), |Names(sender)| + 1, |IntText(sender.id)|;
      && k + n <= |t|
      && (sender.id >= 0 ==> ParseDecimal(t[k..k + n]) == Some(sender.id))
      && (sender.id < 0 ==> t[k] == '-' && ParseDecimal(t[k + 1..k + n]) == Some(-sender.id))
  {
    IntTextReadsBack(sender.id, UserTitle(sender), |Names(sender)| + 1);
  }

  /** A sender with no names and no handle is titled by the bracketed id alone. */
  lemma AnonymousTitle(sender: Sender)
    requires !Filled(sender.firstName) && !Filled(sender.lastName) && !Filled(sender.username)
    ensures UserTitle(sender) == "  [" + IntText(sender.id) + "] "
  {
    assert Names(sender) == "  ";
    assert HandlePart(sender.username) == "";
  }
}

=== FILE: models.dfy ===
/**
 * The relay's store: the `users` table (one row per Telegram user id) and the
 * `feedback_messages` link table, which records for every relayed message the
 * copy it produced on the other side of the relay.
 */
module Models {
  import opened Wrappers

  /** A message coordinate: the chat it lives in and its id within that chat. */
  datatype Ref = Ref(chat: int, msg: int)

  /** `tid` and the link coordinates are `BIGINT` columns: signed 64-bit. */
  const BigIntBound: int := 0x8000_0000_0000_0000

  predicate FitsBigInt(n: int) {
    -BigIntBound <= n < BigIntBound
  }

  /** A clock reading; the model never looks inside it. */
  type Timestamp = int

  /**
   * A row of `users`. The names and the handle are nullable columns;
   * `reputation`, `ban` and `date` are always present.
   */
  datatype User = User(
    tid: int,
    firstName: Option<string>,
    lastName: Option<string>,
    username: Option<string>,
    reputation: int,
    ban: bool,
    date: Timestamp)

  /** The `type` column of a link: a user's request or a staff response. */
  datatype LinkKind = Request | Response

  /**
   * A row of `feedback_messages`: the message at `src` was relayed as the
   * message at `dst`. All four coordinates are mandatory.
   */
  datatype Link = Link(id: nat, src: Ref, dst: Ref, kind: LinkKind)

  /** Which end of a link a lookup matches on. */
  datatype End = From | To

  /**
   * The whole store. Both tables are kept in table order; `nextLinkId` is the
   * value the auto-incrementing link id hands out next.
   */
  datatype Db = Db(users: seq<User>, links: seq<Link>, nextLinkId: nat)

  /** `tid` is the primary key of `users`. */
  predicate UniqueTids(users: seq<User>) {
    forall i, j :: 0 <= i < |users| && 0 <= j < |users| && i != j ==> users[i].tid != users[j].tid
  }

  /** Link ids are handed out in increasing order, all below the next one. */
  predicate AscendingIds(links: seq<Link>, next: nat) {
    && (forall i, j :: 0 <= i < j < |links| ==> links[i].id < links[j].id)
    && (forall i :: 0 <= i < |links| ==> links[i].id < next)
  }

  predicate Valid(db: Db) {
    UniqueTids(db.users) && AscendingIds(db.links, db.nextLinkId)
  }

  predicate HasUser(users: seq<User>, tid: int) {
    exists i :: 0 <= i < |users| && users[i].tid == tid
  }

  /** Number of rows of `users` carrying `tid`. */
  function CountTid(users: seq<User>, tid: int): nat {
    if |users| == 0 then 0
    else CountTid(users[..|users| - 1], tid) + (if users[|users| - 1].tid == tid then 1 else 0)
  }

  /** `SELECT ... FROM users WHERE tid = :tid`, on a table whose key is `tid`. */
  function FindUser(users: seq<User>, tid: int): (r: Option<User>)
    ensures r.Some? <==> HasUser(users, tid)
    ensures r.Some? ==> r.value.tid == tid && r.value in users
  {
    if |users| == 0 then None
    else if users[0].tid == tid then Some(users[0])
    else FindUser(users[1..], tid)
  }

  /**
   * A row as `INSERT INTO users` creates it when only the key, the names and
   * the date are given: the column defaults leave the user unbanned with
   * reputation 0.
   */
  function NewUser(tid: int, firstName: Option<string>, lastName: Option<string>,
                   username: Option<string>, date: Timestamp): User
  {
    User(tid, firstName, lastName, username, 0, false, date)
  }

  /** `db2` is `db1` after setting `ban := flag` on the rows whose key is `tid`. */
  predicate BanUpdated(db1: Db, db2: Db, tid: int, flag: bool) {
    && db2.links == db1.links
    && db2.nextLinkId == db1.nextLinkId
    && |db2.users| == |db1.users|
    && (forall i :: 0 <= i < |db1.users| ==>
          db2.users[i].tid == db1.users[i].tid
          && db2.users[i].firstName == db1.users[i].firstName
          && db2.users[i].lastName == db1.users[i].lastName
          && db2.users[i].username == db1.users[i].username
          && db2.users[i].reputation == db1.users[i].reputation
          && db2.users[i].date == db1.users[i].date)
    && (forall i :: 0 <= i < |db1.users| && db1.users[i].tid == tid ==> db2.users[i].ban == flag)
    && (forall i :: 0 <= i < |db1.users| && db1.users[i].tid != tid ==> db2.users[i] == db1.users[i])
  }

  function SetBanRows(users: seq<User>, tid: int, flag: bool): (r: seq<User>)
    ensures BanUpdated(Db(users, [], 0), Db(r, [], 0), tid, flag)
  {
    if |users| == 0 then []
    else
      var u := users[0];
      var rest := SetBanRows(users[1..], tid, flag);
      var r := [if u.tid == tid then u.(ban := flag) else u] + rest;
      assert forall i :: 1 <= i < |users| ==> r[i] == rest[i - 1] && users[i] == users[1..][i - 1];
      r
  }

  /** `UPDATE users SET ban = :flag WHERE tid = :tid`. */
  function SetBan(db: Db, tid: int, flag: bool): (r: Db)
    ensures BanUpdated(db, r, tid, flag)
    ensures Valid(db) ==> Valid(r)
  {
    db.(users := SetBanRows(db.users, tid, flag))
  }

  /** `db2` is `db1` with one more link, from `src` to `dst`, after all the others. */
  predicate LinkAdded(db1: Db, db2: Db, src: Ref, dst: Ref, kind: LinkKind) {
    && db2.users == db1.users
    && |db2.links| == |db1.links| + 1
    && db2.links[..|db1.links|] == db1.links
    && db2.links[|db1.links|].src == src
    && db2.links[|db1.links|].dst == dst
    && db2.links[|db1.links|].kind == kind
  }

  /** The row of `tid` exists and has its ban flag set. */
  predicate IsBanned(users: seq<User>, tid: int) {
    FindUser(users, tid).Some? && FindUser(users, tid).value.ban
  }

  /**
   * `INSERT INTO feedback_messages`: the new row gets the next id of the
   * auto-increment and goes after every existing row.
   */
  function AppendLink(db: Db, src: Ref, dst: Ref, kind: LinkKind): (r: Db)
    ensures LinkAdded(db, r, src, dst, kind)
    ensures Valid(db) ==> Valid(r)
    ensures Valid(db) ==> forall i :: 0 <= i < |db.links| ==> db.links[i].id != r.links[|db.links|].id
  {
    Db(db.users, db.links + [Link(db.nextLinkId, src, dst, kind)], db.nextLinkId + 1)
  }

  /** The coordinate of `l` a lookup on `end` compares against. */
  function Key(l: Link, end: End): Ref {
    if end == From then l.src else l.dst
  }

  predicate NoHit(links: seq<Link>, end: End, at: Ref) {
    forall i :: 0 <= i < |links| ==> Key(links[i], end) != at
  }

  /** Row `i` is the one and only row whose `end` is `at`. */
  predicate OnlyHitAt(links: seq<Link>, end: End, at: Ref, i: int) {
    && 0 <= i < |links|
    && Key(links[i], end) == at
    && forall j :: 0 <= j < |links| && j != i ==> Key(links[j], end) != at
  }

  predicate SeveralHits(links: seq<Link>, end: End, at: Ref) {
    exists i, j :: 0 <= i < j < |links| && Key(links[i], end) == at && Key(links[j], end) == at
  }

  /** What `one_or_none()` / `one()` see: no row, exactly one, or more. */
  datatype Lookup = NoRow | OneRow(link: Link) | ManyRows

  /** `SELECT ... FROM feedback_messages WHERE <end>_chat_id = :chat AND <end>_message_id = :msg`. */
  function Find(links: seq<Link>, end: End, at: Ref): (r: Lookup)
    ensures r.NoRow? <==> NoHit(links, end, at)
    ensures r.ManyRows? <==> SeveralHits(links, end, at)
    ensures r.OneRow? <==> exists i :: OnlyHitAt(links, end, at, i)
    ensures r.OneRow? ==> exists i :: OnlyHitAt(links, end, at, i) && links[i] == r.link
  {
    if |links| == 0 then NoRow
    else
      var init := links[..|links| - 1];
      var last := links[|links| - 1];
      var r0 := Find(init, end, at);
      if Key(last, end) != at then
        assert forall i :: OnlyHitAt(init, end, at, i) ==> OnlyHitAt(links, end, at, i);
        assert SeveralHits(links, end, at) ==> SeveralHits(init, end, at);
        r0
      else if r0.NoRow? then
        assert OnlyHitAt(links, end, at, |links| - 1);
        OneRow(last)
      else
        assert r0.OneRow? ==> exists i :: OnlyHitAt(init, end, at, i) && i < |links| - 1;
        assert SeveralHits(links, end, at);
        ManyRows
  }

  /** In a table keyed by `tid`, a registered id occurs exactly once. */
  lemma {:induction false} UniqueCount(users: seq<User>, tid: int)
    requires UniqueTids(users)
    ensures HasUser(users, tid) ==> CountTid(users, tid) == 1
    ensures !HasUser(users, tid) ==> CountTid(users, tid) == 0
  {
    if |users| > 0 {
      var init := users[..|users| - 1];
      assert UniqueTids(init);
      UniqueCount(init, tid);
      if users[|users| - 1].tid == tid {
        assert !HasUser(init, tid);
      } else {
        assert HasUser(users, tid) ==> HasUser(init, tid);
      }
    }
  }

  /** Updating the ban flag of an id no row carries changes nothing. */
  lemma SetBanUnknown(db: Db, tid: int, flag: bool)
    requires !HasUser(db.users, tid)
    ensures SetBan(db, tid, flag) == db
  {
    var r := SetBan(db, tid, flag);
    assert r.users == db.users;
  }

  /** After the update, the row of a registered id reads back the new flag. */
  lemma SetBanReadBack(db: Db, tid: int, flag: bool)
    requires HasUser(db.users, tid)
    ensures FindUser(SetBan(db, tid, flag).users, tid).Some?
    ensures FindUser(SetBan(db, tid, flag).users, tid).value.ban == flag
  {
    var r := SetBan(db, tid, flag);
    var i :| 0 <= i < |db.users| && db.users[i].tid == tid;
    assert r.users[i].tid == tid;
    var u := FindUser(r.users, tid).value;
    var k :| 0 <= k < |r.users| && r.users[k] == u;
  }

  /** A row appended at the end is found only when no earlier row has its key. */
  lemma {:induction false} FindUserAppend(users: seq<User>, u: User, tid: int)
    ensures FindUser(users + [u], tid) ==
      if HasUser(users, tid) then FindUser(users, tid) else if u.tid == tid then Some(u) else None
  {
    if |users| > 0 {
      assert (users + [u])[1..] == users[1..] + [u];
      FindUserAppend(users[1..], u, tid);
      if users[0].tid != tid {
        assert HasUser(users, tid) <==> HasUser(users[1..], tid) by {
          if HasUser(users, tid) {
            var i :| 0 <= i < |users| && users[i].tid == tid;
            assert users[1..][i - 1] == users[i];
          }
        }
      }
    } else {
      assert users + [u] == [u];
    }
  }

  /**
   * Nothing makes a link's source unique: linking the same source twice
   * keeps the store valid and leaves two rows for a lookup by source.
   */
  lemma DuplicateSourcesAllowed(db: Db, src: Ref, dst1: Ref, dst2: Ref)
    requires Valid(db)
    ensures var db2 := AppendLink(AppendLink(db, src, dst1, Request), src, dst2, Request);
      Valid(db2) && SeveralHits(db2.links, From, src)
  {
    var db1 := AppendLink(db, src, dst1, Request);
    var db2 := AppendLink(db1, src, dst2, Request);
    assert db2.links[|db.links|] == db1.links[|db.links|];
    assert Key(db2.links[|db.links|], From) == src && Key(db2.links[|db.links| + 1], From) == src;
  }
}

=== FILE: moderation.dfy ===
/**
 * Moderation commands of the feedback chat: banning and unbanning a user by
 * id or by replying to one of their relayed messages, and revealing the id
 * behind a relayed message.
 */
module Moderation {
  import opened Wrappers
  import opened Numerals
  import opened Models
  import opened Relay
  import opened Correlation

  function UnbannedText(uid: int): string {
    "Я разбанил " + IntText(uid)
  }

  function BannedText(uid: int): string {
    "Я забанил " + IntText(uid) + ", для разбана исплользуйте /unban"
  }

  /** The confirmation for setting the ban flag of `uid` to `flag`. */
  function BanText(uid: int, flag: bool): string {
    if flag then BannedText(uid) else UnbannedText(uid)
  }

  /**
   * `unban`: `/unban <digits>` clears the ban flag of that id and confirms.
   * The update is committed before the confirmation is sent, so it stands
   * even when the reply raises. An empty digit group makes `int` raise
   * ValueError before anything happens; an id beyond the `BIGINT` range
   * makes the update itself fail, so nothing is committed or sent.
   * `replied` says whether the reply call returned.
   */
  function Unban(db: Db, command: Ref, digits: string, replied: bool): (r: Step)
    ensures ParseDecimal(digits).None? ==> r == Step(db, [], Some(ValueError))
    ensures ParseDecimal(digits).Some? && !FitsBigInt(ParseDecimal(digits).value) ==>
      r == Step(db, [], Some(DriverError))
    ensures ParseDecimal(digits).Some? && FitsBigInt(ParseDecimal(digits).value) ==>
      var uid := ParseDecimal(digits).value;
      && BanUpdated(db, r.db, uid, false)
      && r.calls == [Reply(command, UnbannedText(uid))]
      && (replied ==> r.raised.None?)
      && (!replied ==> r.raised == Some(ApiError))
    ensures Valid(db) ==> Valid(r.db)
  {
    match ParseDecimal(digits)
    case None => Step(db, [], Some(ValueError))
    case Some(uid) =>
      if !FitsBigInt(uid) then Step(db, [], Some(DriverError))
      else Step(SetBan(db, uid, false), [Reply(command, UnbannedText(uid))], if replied then None else Some(ApiError))
  }

  /**
   * `ban_by_id`: `/ban <digits>` sets the ban flag of that id and confirms.
   * The confirmation is sent inside the transaction, so when it raises the
   * update is rolled back; an id beyond the `BIGINT` range makes the update
   * itself fail before the confirmation.
   */
  function BanById(db: Db, command: Ref, digits: string, replied: bool): (r: Step)
    ensures ParseDecimal(digits).None? ==> r == Step(db, [], Some(ValueError))
    ensures ParseDecimal(digits).Some? && !FitsBigInt(ParseDecimal(digits).value) ==>
      r == Step(db, [], Some(DriverError))
    ensures ParseDecimal(digits).Some? && FitsBigInt(ParseDecimal(digits).value) ==>
      var uid := ParseDecimal(digits).value;
      && r.calls == [Reply(command, BannedText(uid))]
      && (replied ==> BanUpdated(db, r.db, uid, true) && r.raised.None?)
      && (!replied ==> r.db == db && r.raised == Some(ApiError))
    ensures Valid(db) ==> Valid(r.db)
  {
    match ParseDecimal(digits)
    case None => Step(db, [], Some(ValueError))
    case Some(uid) =>
      if !FitsBigInt(uid) then Step(db, [], Some(DriverError))
      else
        var call := Reply(command, BannedText(uid));
        if replied then Step(SetBan(db, uid, true), [call], None)
        else Step(db, [call], Some(ApiError))
  }

  /**
   * `ban_by_reply` (`flag` true) and `unban_by_reply` (`flag` false): a
   * `/ban` or `/unban` that replies to a relayed message applies to the chat
   * the message came from. A reply to an untracked message is ignored; the
   * confirmation is sent inside the transaction, so when it raises the
   * update is rolled back.
   */
  function SetBanByReply(db: Db, command: Ref, repliedMsg: int, flag: bool, replied: bool): (r: Step)
    ensures NoHit(db.links, To, Ref(command.chat, repliedMsg)) ==> r == Step(db, [], None)
    ensures SeveralHits(db.links, To, Ref(command.chat, repliedMsg)) ==> r == Step(db, [], Some(MultipleResultsFound))
    ensures forall i :: OnlyHitAt(db.links, To, Ref(command.chat, repliedMsg), i) ==>
      var uid := db.links[i].src.chat;
      && r.calls == [Reply(command, BanText(uid, flag))]
      && (replied ==> BanUpdated(db, r.db, uid, flag) && r.raised.None?)
      && (!replied ==> r.db == db && r.raised == Some(ApiError))
    ensures Valid(db) ==> Valid(r.db)
  {
    match MessageOrigin(db.links, Ref(command.chat, repliedMsg))
    case Failure(NoResultFound) => Step(db, [], None)
    case Failure(f) => Step(db, [], Some(f))
    case Success(origin) =>
      var call := Reply(command, BanText(origin.chat, flag));
      if replied then Step(SetBan(db, origin.chat, flag), [call], None)
      else Step(db, [call], Some(ApiError))
  }

  /**
   * `get_id`: `/id` or `/get_id` in reply to a relayed message answers with
   * the id of the chat the message came from.
   */
  function GetId(db: Db, command: Ref, repliedMsg: int): (r: Step)
    ensures r.db == db
    ensures NoHit(db.links, To, Ref(command.chat, repliedMsg)) ==> r == Step(db, [], None)
    ensures SeveralHits(db.links, To, Ref(command.chat, repliedMsg)) ==> r == Step(db, [], Some(MultipleResultsFound))
    ensures forall i :: OnlyHitAt(db.links, To, Ref(command.chat, repliedMsg), i) ==>
      r == Step(db, [Answer(command.chat, IntText(db.links[i].src.chat))], None)
  {
    match MessageOrigin(db.links, Ref(command.chat, repliedMsg))
    case Failure(NoResultFound) => Step(db, [], None)
    case Failure(f) => Step(db, [], Some(f))
    case Success(origin) => Step(db, [Answer(command.chat, IntText(origin.chat))], None)
  }
}

=== FILE: numerals.dfy ===
/**
 * Positional numerals: Python's `str(int)` and `int(s)` for decimal text,
 * and the `"%.32x"` fixed-width lower-case hexadecimal format.
 */
module Numerals {
  import opened Wrappers

  function Pow(base: nat, e: nat): (r: nat)
    ensures base >= 1 ==> r >= 1
  {
    if e == 0 then 1 else base * Pow(base, e - 1)
  }

  /** The lower-case character for digit `d` (as `%x` and `str` write it). */
  function DigitChar(d: nat): char
    requires d < 16
  {
    if d < 10 then ('0' as int + d) as char else ('a' as int + d - 10) as char
  }

  /** The value of a digit character, upper or lower case (as `int(s, 16)` reads it). */
  function DigitValue(c: char): (r: Option<nat>)
    ensures r.Some? ==> r.value < 16
  {
    if '0' <= c <= '9' then Some(c as int - '0' as int)
    else if 'a' <= c <= 'f' then Some(c as int - 'a' as int + 10)
    else if 'A' <= c <= 'F' then Some(c as int - 'A' as int + 10)
    else None
  }

  predicate IsDigit(c: char, base: nat) {
    DigitValue(c).Some? && DigitValue(c).value < base
  }

  /** A digit as this module writes it: never one of `A`..`F`. */
  predicate IsLowerDigit(c: char, base: nat) {
    IsDigit(c, base) && !('A' <= c <= 'F')
  }

  predicate AllDigits(s: string, base: nat) {
    forall i :: 0 <= i < |s| ==> IsDigit(s[i], base)
  }

  predicate AllLowerDigits(s: string, base: nat) {
    forall i :: 0 <= i < |s| ==> IsLowerDigit(s[i], base)
  }

  /** The number a digit string denotes, most significant digit first. */
  function ValueOf(s: string, base: nat): nat
    requires AllDigits(s, base)
  {
    if |s| == 0 then 0 else ValueOf(s[..|s| - 1], base) * base + DigitValue(s[|s| - 1]).value
  }

  /** `n` written with exactly `width` lower-case digits, zero-padded on the left. */
  function Padded(n: nat, base: nat, width: nat): (r: string)
    requires 2 <= base <= 16
    ensures |r| == width
    ensures AllLowerDigits(r, base)
  {
    if width == 0 then [] else Padded(n / base, base, width - 1) + [DigitChar(n % base)]
  }

  /** `str(n)` for a natural number: the shortest decimal numeral. */
  function Decimal(n: nat): (r: string)
    ensures |r| >= 1
    ensures AllLowerDigits(r, 10)
    ensures r[0] == '0' ==> n == 0 && |r| == 1
  {
    if n < 10 then [DigitChar(n)] else Decimal(n / 10) + [DigitChar(n % 10)]
  }

  /** `str(i)` for any integer: a minus sign before negative values. */
  function IntText(i: int): (r: string)
    ensures |r| >= 1
    ensures r[0] == '-' <==> i < 0
    ensures i >= 0 ==> r == Decimal(i)
    ensures i < 0 ==> r[1..] == Decimal(-i)
  {
    if i < 0 then "-" + Decimal(-i) else Decimal(i)
  }

  /**
   * `int(s)` on the digit group a `[0-9]*` pattern captured: the empty
   * capture and anything that is not a decimal numeral raise ValueError,
   * here `None`.
   */
  function ParseDecimal(s: string): (r: Option<nat>)
    ensures r.Some? <==> |s| > 0 && AllDigits(s, 10)
    ensures r.Some? ==> r.value < Pow(10, |s|)
    ensures r.Some? ==> Padded(r.value, 10, |s|) == s
  {
    if |s| > 0 && AllDigits(s, 10) then
      ValueBound(s, 10);
      DecimalDigitsAreLower(s);
      ValuePadded(s, 10);
      Some(ValueOf(s, 10))
    else None
  }

  /** A decimal digit is never one of `A`..`F`. */
  lemma DecimalDigitsAreLower(s: string)
    requires AllDigits(s, 10)
    ensures AllLowerDigits(s, 10)
  {
    forall i | 0 <= i < |s| ensures IsLowerDigit(s[i], 10) {
      assert IsDigit(s[i], 10);
    }
  }

  lemma DigitCharValue(d: nat)
    requires d < 16
    ensures DigitValue(DigitChar(d)) == Some(d)
  {
  }

  lemma LowerDigitChar(c: char, base: nat)
    requires IsLowerDigit(c, base)
    ensures DigitChar(DigitValue(c).value) == c
  {
  }

  /** Appending a digit multiplies the value so far by the base and adds the digit. */
  lemma ValueOfSnoc(init: string, c: char, base: nat)
    requires AllDigits(init, base)
    requires IsDigit(c, base)
    ensures AllDigits(init + [c], base)
    ensures ValueOf(init + [c], base) == ValueOf(init, base) * base + DigitValue(c).value
  {
    assert (init + [c])[..|init|] == init;
  }

  /** The two bases the relay writes numbers in. */
  predicate IsRadix(base: nat) {
    base == 10 || base == 16
  }

  lemma DivMod(n: nat, base: nat, p: nat)
    requires IsRadix(base)
    requires n < base * p
    ensures n / base < p
    ensures (n / base) * base + n % base == n
  {
    if base == 10 {
      assert n / 10 < p;
    } else {
      assert n / 16 < p;
    }
  }

  lemma DigitAppend(v: nat, d: nat, base: nat)
    requires IsRadix(base)
    requires d < base
    ensures (v * base + d) / base == v
    ensures (v * base + d) % base == d
  {
    if base == 10 {
      assert (v * 10 + d) / 10 == v;
    } else {
      assert (v * 16 + d) / 16 == v;
    }
  }

  lemma BelowNext(v: nat, d: nat, base: nat, p: nat)
    requires IsRadix(base)
    requires d < base
    requires v < p
    ensures v * base + d < p * base
  {
    if base == 10 {
      assert v * 10 + d < p * 10;
    } else {
      assert v * 16 + d < p * 16;
    }
  }

  /** Reading back a padded numeral gives the number, when it fits the width. */
  lemma {:induction false} PaddedValue(n: nat, base: nat, width: nat)
    requires IsRadix(base)
    requires n < Pow(base, width)
    ensures ValueOf(Padded(n, base, width), base) == n
  {
    if width > 0 {
      var q, m := n / base, n % base;
      var init := Padded(q, base, width - 1);
      assert Padded(n, base, width) == init + [DigitChar(m)];
      DivMod(n, base, Pow(base, width - 1));
      PaddedValue(q, base, width - 1);
      DigitCharValue(m);
      ValueOfSnoc(init, DigitChar(m), base);
    }
  }

  /** A numeral of `k` digits denotes a number below `base^k`. */
  lemma {:induction false} ValueBound(s: string, base: nat)
    requires IsRadix(base)
    requires AllDigits(s, base)
    ensures ValueOf(s, base) < Pow(base, |s|)
  {
    if |s| > 0 {
      var init := s[..|s| - 1];
      ValueBound(init, base);
      BelowNext(ValueOf(init, base), DigitValue(s[|s| - 1]).value, base, Pow(base, |init|));
    }
  }

  /** Writing back the value of a lower-case numeral reproduces it exactly. */
  lemma {:induction false} ValuePadded(s: string, base: nat)
    requires IsRadix(base)
    requires AllLowerDigits(s, base)
    ensures Padded(ValueOf(s, base), base, |s|) == s
  {
    if |s| > 0 {
      var init := s[..|s| - 1];
      var v := ValueOf(init, base);
      var d := DigitValue(s[|s| - 1]).value;
      assert AllLowerDigits(init, base);
      assert ValueOf(s, base) == v * base + d;
      DigitAppend(v, d, base);
      ValuePadded(init, base);
      LowerDigitChar(s[|s| - 1], base);
      calc {
        Padded(v * base + d, base, |s|);
      ==
        Padded(v, base, |s| - 1) + [DigitChar(d)];
      ==
        init + [s[|s| - 1]];
      ==
        s;
      }
    }
  }

  /** Reading back a decimal numeral gives the number. */
  lemma {:induction false} DecimalValue(n: nat)
    ensures ValueOf(Decimal(n), 10) == n
  {
    if n >= 10 {
      var s := Decimal(n);
      assert s[..|s| - 1] == Decimal(n / 10);
      DecimalValue(n / 10);
      DigitCharValue(n % 10);
    } else {
      DigitCharValue(n);
    }
  }

  /** `int(str(n)) == n` for every natural number. */
  lemma DecimalRoundTrip(n: nat)
    ensures ParseDecimal(Decimal(n)) == Some(n)
  {
    DecimalValue(n);
  }
}

=== FILE: relay.dfy ===
/**
 * What a handler of the relay bot sees and does: the inbound Telegram
 * message, the Bot API calls it issues, the exceptions that escape it, and
 * the store it leaves behind.
 */
module Relay {
  import opened Wrappers
  import opened Models

  /** The author of a message (`message.from_user`). */
  datatype Sender = Sender(
    id: int,
    firstName: Option<string>,
    lastName: Option<string>,
    username: Option<string>)

  datatype MediaKind = Photo | Video | Document | Audio | Sticker | Voice | VideoNote

  /** A message body: text, or a media item with an optional caption. */
  datatype Content = Text(text: string) | Media(kind: MediaKind, caption: Option<string>)

  /**
   * An inbound message: where it is, who wrote it, the id of the message it
   * replies to (if any) and what it carries.
   */
  datatype Message = Message(at: Ref, sender: Sender, replyTo: Option<int>, content: Content)

  /** An entry of the bot's command menu. */
  datatype BotCommand = BotCommand(command: string, description: string)

  /** A Bot API call issued by a handler, in the order issued. */
  datatype Call =
    | SendMessage(chat: int, text: string, replyTo: Option<int>)
    | Reply(to: Ref, text: string)
    | ReplyFormatted(to: Ref, text: string, disablePreview: bool, parseMode: string)
    | Answer(chat: int, text: string)
    | Forward(source: Ref, toChat: int)
    | Copy(source: Ref, toChat: int, replyTo: Option<int>)
    | EditText(target: Ref, text: string)
    | EditCaption(target: Ref, caption: Option<string>)
    | SetMyCommands(commands: seq<BotCommand>)

  /**
   * Exceptions a handler lets escape: the two `Query.one()` errors, the
   * attribute access on a missing row, `int("")`, a missing configuration
   * key, the database driver refusing a value outside a `BIGINT` column's
   * range, and any Bot API error raised by a call.
   */
  datatype Fault =
    | NoResultFound
    | MultipleResultsFound
    | AttributeError
    | ValueError
    | KeyError
    | DriverError
    | ApiError

  /**
   * The outcome of one handler run: the committed store, the calls issued,
   * and the exception that ended the run, if one did.
   */
  datatype Step = Step(db: Db, calls: seq<Call>, raised: Option<Fault>)
}

=== FILE: scenarios.dfy ===
/**
 * Properties of handler sequences: a full request/response round trip,
 * thread continuation, edit propagation, and the effect of bans on later
 * messages.
 */
module Scenarios {
  import opened Wrappers
  import opened Numerals
  import opened Models
  import opened Relay
  import opened Identity
  import opened Correlation
  import opened Moderation

  /** A link appended at a coordinate no earlier link reaches is the only one reaching it. */
  lemma FreshLinkIsOnlyHit(db: Db, db2: Db, src: Ref, dst: Ref, kind: LinkKind, end: End)
    requires LinkAdded(db, db2, src, dst, kind)
    requires NoHit(db.links, end, Key(db2.links[|db.links|], end))
    ensures OnlyHitAt(db2.links, end, Key(db2.links[|db.links|], end), |db.links|)
  {
    var at := Key(db2.links[|db.links|], end);
    forall j | 0 <= j < |db2.links| && j != |db.links|
      ensures Key(db2.links[j], end) != at
    {
      assert db2.links[j] == db.links[j];
    }
  }

  /**
   * A user's message relayed into the feedback chat, then answered by the
   * staff in reply to the forwarded copy: the answer is copied back to the
   * user's chat, threaded under the original message, and linked.
   */
  lemma RequestThenAnswer(db: Db, msg: Message, feedbackChat: int, now: Timestamp, fwd: Ref,
                          staff: Message, copied: Ref)
    requires msg.at.chat != feedbackChat
    requires !IsBanned(db.users, msg.sender.id)
    requires ReplyContext(db.links, msg.at.chat, msg.replyTo).Success?
    requires NoHit(db.links, To, fwd)
    requires staff.at.chat == fwd.chat && staff.replyTo == Some(fwd.msg)
    ensures var r1 := FeedbackRequest(db, msg, feedbackChat, now, true, Some(fwd));
      var r2 := FeedbackAnswer(r1.db, staff, Some(copied));
      && r1.raised.None?
      && r2.calls == [Copy(staff.at, msg.at.chat, Some(msg.at.msg))]
      && r2.raised.None?
      && LinkAdded(r1.db, r2.db, staff.at, copied, Response)
  {
    var reg := RegisterSender(db, msg.at.chat, msg.sender, feedbackChat, now);
    RegisterKeepsBan(db, msg.at.chat, msg.sender, feedbackChat, now);
    var r1 := FeedbackRequest(db, msg, feedbackChat, now, true, Some(fwd));
    assert r1.db != reg;
    FreshLinkIsOnlyHit(reg, r1.db, msg.at, fwd, Request, To);
  }

  /**
   * After a staff answer has been copied to the user, the user's reply to
   * that copy continues the thread under the staff message.
   */
  lemma ReplyToAnswerContinuesThread(db: Db, staff: Message, copied: Ref)
    requires staff.replyTo.Some?
    requires exists i :: OnlyHitAt(db.links, To, Ref(staff.at.chat, staff.replyTo.value), i)
    requires NoHit(db.links, To, copied)
    ensures var r := FeedbackAnswer(db, staff, Some(copied));
      ReplyContext(r.db.links, copied.chat, Some(copied.msg)) == Success(Some(staff.at.msg))
  {
    var r := FeedbackAnswer(db, staff, Some(copied));
    FreshLinkIsOnlyHit(db, r.db, staff.at, copied, Response, To);
  }

  /**
   * An edit of a staff answer that was copied to a user is pushed to that
   * copy: as new text for a text message, as a new caption otherwise.
   */
  lemma EditOfAnswerReachesCopy(db: Db, staff: Message, copied: Ref, edited: Message)
    requires staff.replyTo.Some?
    requires exists i :: OnlyHitAt(db.links, To, Ref(staff.at.chat, staff.replyTo.value), i)
    requires NoHit(db.links, From, staff.at)
    requires edited.at == staff.at
    ensures var r := FeedbackAnswer(db, staff, Some(copied));
      var e := HandleEditedMessage(r.db, edited);
      && e.db == r.db
      && e.raised.None?
      && (edited.content.Text? ==> e.calls == [EditText(copied, edited.content.text)])
      && (edited.content.Media? ==> e.calls == [EditCaption(copied, edited.content.caption)])
  {
    var r := FeedbackAnswer(db, staff, Some(copied));
    FreshLinkIsOnlyHit(db, r.db, staff.at, copied, Response, From);
  }

  /** Banning a registered user by id silences every later message of theirs. */
  lemma BanSilencesSender(db: Db, command: Ref, digits: string, msg: Message, feedbackChat: int,
                          now: Timestamp, headerSent: bool, forwarded: Option<Ref>)
    requires ParseDecimal(digits).Some?
    requires msg.sender.id == ParseDecimal(digits).value
    requires FitsBigInt(msg.sender.id)
    requires HasUser(db.users, msg.sender.id)
    ensures var banned := BanById(db, command, digits, true).db;
      FeedbackRequest(banned, msg, feedbackChat, now, headerSent, forwarded) == Step(banned, [], None)
  {
    var uid := msg.sender.id;
    var banned := BanById(db, command, digits, true).db;
    assert banned == SetBan(db, uid, true);
    SetBanReadBack(db, uid, true);
    assert HasUser(banned.users, uid);
  }

  /** Unbanning a registered user lets their next message through to the feedback chat. */
  lemma UnbanRestoresRelay(db: Db, command: Ref, digits: string, replied: bool, msg: Message,
                           feedbackChat: int, now: Timestamp, forwarded: Ref)
    requires ParseDecimal(digits).Some?
    requires msg.sender.id == ParseDecimal(digits).value
    requires FitsBigInt(msg.sender.id)
    requires HasUser(db.users, msg.sender.id)
    requires msg.replyTo.None?
    ensures var unbanned := Unban(db, command, digits, replied).db;
      var r := FeedbackRequest(unbanned, msg, feedbackChat, now, true, Some(forwarded));
      r.raised.None? && LinkAdded(unbanned, r.db, msg.at, forwarded, Request)
  {
    var uid := msg.sender.id;
    var unbanned := Unban(db, command, digits, replied).db;
    assert unbanned == SetBan(db, uid, false);
    SetBanReadBack(db, uid, false);
    assert HasUser(unbanned.users, uid);
  }

  /**
   * A ban issued before the user ever wrote is lost: the update matches no
   * row, and the user's first message registers them unbanned.
   */
  lemma BanBeforeRegistrationIsLost(db: Db, command: Ref, digits: string, msg: Message,
                                    feedbackChat: int, now: Timestamp, forwarded: Ref)
    requires ParseDecimal(digits).Some?
    requires msg.sender.id == ParseDecimal(digits).value
    requires !HasUser(db.users, msg.sender.id)
    requires msg.at.chat != feedbackChat
    requires msg.replyTo.None?
    ensures BanById(db, command, digits, true).db == db
    ensures var r := FeedbackRequest(db, msg, feedbackChat, now, true, Some(forwarded));
      r.raised.None? && |r.db.links| == |db.links| + 1
  {
    SetBanUnknown(db, msg.sender.id, true);
    RegisterKeepsBan(db, msg.at.chat, msg.sender, feedbackChat, now);
  }
}

=== FILE: uuid_type.dfy ===
/**
 * The platform-independent UUID column type: a native UUID column on
 * PostgreSQL, and elsewhere a `CHAR(32)` holding the 128-bit value as 32
 * lower-case hexadecimal digits.
 */
module UuidType {
  import opened Wrappers
  import opened Numerals

  /** A UUID, seen as the 128-bit integer `uuid.UUID.int`. */
  type Uuid = n: nat | n < 0x1_0000_0000_0000_0000_0000_0000_0000_0000

  /** A value crossing the column: SQL NULL, a `uuid.UUID` object, or a string. */
  datatype Value = Null | UuidObject(u: Uuid) | Str(s: string)

  /** The column type the dialect is given. */
  datatype ColumnType = NativeUuid | Char(length: nat)

  /** `uuid.UUID(s)` raises ValueError on a badly formed hexadecimal string. */
  datatype ParseError = BadlyFormedHex

  const Postgresql := "postgresql"

  /** `load_dialect_impl`: native UUID on PostgreSQL, `CHAR(32)` everywhere else. */
  function LoadDialectImpl(dialect: string): (t: ColumnType)
    ensures t == NativeUuid <==> dialect == Postgresql
    ensures t != NativeUuid ==> t == Char(32)
  {
    if dialect == Postgresql then NativeUuid else Char(32)
  }

  lemma {:induction false} PowAdd(b: nat, m: nat, n: nat)
    ensures Pow(b, m + n) == Pow(b, m) * Pow(b, n)
  {
    if m > 0 {
      calc {
        Pow(b, m + n);
      ==
        b * Pow(b, m - 1 + n);
      == { PowAdd(b, m - 1, n); }
        b * (Pow(b, m - 1) * Pow(b, n));
      ==
        (b * Pow(b, m - 1)) * Pow(b, n);
      ==
        Pow(b, m) * Pow(b, n);
      }
    }
  }

  /** 32 hex digits hold exactly the 128-bit values. */
  lemma PowBound()
    ensures Pow(16, 32) == 0x1_0000_0000_0000_0000_0000_0000_0000_0000
  {
    assert Pow(16, 2) == 0x100;
    PowAdd(16, 2, 2);
    PowAdd(16, 4, 4);
    PowAdd(16, 8, 8);
    PowAdd(16, 16, 16);
  }

  /** `"%.32x" % u`: the value as exactly 32 lower-case hex digits. */
  function Hex32(u: Uuid): (r: string)
    ensures |r| == 32
    ensures AllLowerDigits(r, 16)
    ensures ValueOf(r, 16) == u
  {
    PowBound();
    PaddedValue(u, 16, 32);
    Padded(u, 16, 32)
  }

  /** 32 hex digits grouped 8-4-4-4-12 by hyphens. */
  function Grouped(h: string): (r: string)
    requires |h| == 32
    ensures |r| == 36
  {
    h[..8] + "-" + h[8..12] + "-" + h[12..16] + "-" + h[16..20] + "-" + h[20..]
  }

  /** `str(u)`: the canonical hyphenated form. */
  function Canonical(u: Uuid): (r: string)
    ensures |r| == 36
  {
    Grouped(Hex32(u))
  }

  /** `s.replace('-', '')`. */
  function RemoveHyphens(s: string): (r: string)
    ensures |r| <= |s|
    ensures forall i :: 0 <= i < |r| ==> r[i] != '-'
    ensures (forall i :: 0 <= i < |s| ==> s[i] != '-') ==> r == s
  {
    if |s| == 0 then []
    else (if s[0] == '-' then [] else [s[0]]) + RemoveHyphens(s[1..])
  }

  lemma {:induction false} RemoveHyphensAppend(a: string, b: string)
    ensures RemoveHyphens(a + b) == RemoveHyphens(a) + RemoveHyphens(b)
  {
    if |a| > 0 {
      assert (a + b)[1..] == a[1..] + b;
      RemoveHyphensAppend(a[1..], b);
    } else {
      assert a + b == b;
    }
  }

  /**
   * `uuid.UUID(s)` for the hexadecimal forms: hyphens are dropped, and the
   * rest must be exactly 32 hex digits of either case.
   */
  function ParseUuid(s: string): (r: Result<Uuid, ParseError>)
    ensures r.Success? <==> |RemoveHyphens(s)| == 32 && AllDigits(RemoveHyphens(s), 16)
    ensures r.Success? ==> r.value == ValueOf(RemoveHyphens(s), 16)
  {
    var hex := RemoveHyphens(s);
    if |hex| == 32 && AllDigits(hex, 16) then
      ValueBound(hex, 16);
      PowBound();
      Success(ValueOf(hex, 16))
    else Failure(BadlyFormedHex)
  }

  /**
   * `process_bind_param`: NULL passes through; PostgreSQL gets `str(value)`;
   * elsewhere a string is first parsed as a UUID and the value is written as
   * 32 lower-case hex digits.
   */
  function ProcessBindParam(v: Value, dialect: string): (r: Result<Option<string>, ParseError>)
    ensures v.Null? ==> r == Success(None)
    ensures dialect == Postgresql && v.UuidObject? ==> r == Success(Some(Canonical(v.u)))
    ensures dialect == Postgresql && v.Str? ==> r == Success(Some(v.s))
    ensures dialect != Postgresql && v.UuidObject? ==>
      r.Success? && r.value.Some? && |r.value.value| == 32 && AllLowerDigits(r.value.value, 16)
      && ValueOf(r.value.value, 16) == v.u
    ensures dialect != Postgresql && v.Str? ==> (r.Success? <==> ParseUuid(v.s).Success?)
  {
    match v
    case Null => Success(None)
    case UuidObject(u) => if dialect == Postgresql then Success(Some(Canonical(u))) else Success(Some(Hex32(u)))
    case Str(s) =>
      if dialect == Postgresql then Success(Some(s))
      else
        match ParseUuid(s)
        case Success(u) => Success(Some(Hex32(u)))
        case Failure(e) => Failure(e)
  }

  /**
   * `process_result_value`: NULL passes through, a UUID object is returned
   * as it is, and anything else is parsed as a UUID.
   */
  function ProcessResultValue(v: Value): (r: Result<Option<Uuid>, ParseError>)
    ensures v.Null? ==> r == Success(None)
    ensures v.UuidObject? ==> r == Success(Some(v.u))
    ensures v.Str? ==> (r.Success? <==> ParseUuid(v.s).Success?)
    ensures v.Str? && r.Success? ==> r.value == Some(ParseUuid(v.s).value)
  {
    match v
    case Null => Success(None)
    case UuidObject(u) => Success(Some(u))
    case Str(s) =>
      match ParseUuid(s)
      case Success(u) => Success(Some(u))
      case Failure(e) => Failure(e)
  }

  /**
   * Whatever is written off PostgreSQL fits the column the dialect was
   * given: the column is `CHAR(32)` and the text is exactly 32 characters.
   */
  lemma StoredTextFitsColumn(v: Value, dialect: string)
    requires dialect != Postgresql
    ensures LoadDialectImpl(dialect).Char?
    ensures var r := ProcessBindParam(v, dialect);
      r.Success? && r.value.Some? ==> |r.value.value| == LoadDialectImpl(dialect).length
  {
  }

  /** Hex digits never include a hyphen, so the stored form parses as it is. */
  lemma ParseHex32(u: Uuid)
    ensures ParseUuid(Hex32(u)) == Success(u)
  {
    var h := Hex32(u);
    assert forall i :: 0 <= i < |h| ==> h[i] != '-' by {
      forall i | 0 <= i < |h| ensures h[i] != '-' {
        assert IsLowerDigit(h[i], 16);
      }
    }
  }

  /** A string and the UUID it parses to are stored identically. */
  lemma StringAndObjectAgree(s: string, dialect: string)
    requires dialect != Postgresql
    requires ParseUuid(s).Success?
    ensures ProcessBindParam(Str(s), dialect) == ProcessBindParam(UuidObject(ParseUuid(s).value), dialect)
  {
  }

  /** Off PostgreSQL, reading back what was stored gives the original UUID. */
  lemma RoundTrip(u: Uuid, dialect: string)
    requires dialect != Postgresql
    ensures ProcessBindParam(UuidObject(u), dialect).Success?
    ensures var stored := ProcessBindParam(UuidObject(u), dialect).value;
      stored.Some? && ProcessResultValue(Str(stored.value)) == Success(Some(u))
  {
    ParseHex32(u);
  }

  /** A well-formed stored value is rewritten unchanged by a read followed by a write. */
  lemma StoredRoundTrip(s: string, dialect: string)
    requires dialect != Postgresql
    requires |s| == 32 && AllLowerDigits(s, 16)
    ensures ProcessResultValue(Str(s)).Success?
    ensures var u := ProcessResultValue(Str(s)).value;
      u.Some? && ProcessBindParam(UuidObject(u.value), dialect) == Success(Some(s))
  {
    assert forall i :: 0 <= i < |s| ==> s[i] != '-' by {
      forall i | 0 <= i < |s| ensures s[i] != '-' {
        assert IsLowerDigit(s[i], 16);
      }
    }
    assert AllDigits(s, 16);
    ValuePadded(s, 16);
  }

  lemma DropHyphen(x: string, y: string)
    ensures RemoveHyphens(x + "-" + y) == RemoveHyphens(x) + RemoveHyphens(y)
  {
    var dash: string := "-";
    assert dash[1..] == [];
    assert RemoveHyphens(dash) == [];
    calc {
      RemoveHyphens(x + dash + y);
    == { RemoveHyphensAppend(x + dash, y); }
      RemoveHyphens(x + dash) + RemoveHyphens(y);
    == { RemoveHyphensAppend(x, dash); }
      RemoveHyphens(x) + RemoveHyphens(y);
    }
  }

  /** Hyphens placed between five parts vanish when hyphens are dropped. */
  lemma DropFourHyphens(a: string, b: string, c: string, d: string, e: string)
    ensures RemoveHyphens(a + "-" + b + "-" + c + "-" + d + "-" + e) == RemoveHyphens(a + b + c + d + e)
  {
    var ra, rb, rc, rd, re := RemoveHyphens(a), RemoveHyphens(b), RemoveHyphens(c), RemoveHyphens(d), RemoveHyphens(e);
    calc {
      RemoveHyphens(a + "-" + b + "-" + c + "-" + d + "-" + e);
    == { DropHyphen(a + "-" + b + "-" + c + "-" + d, e); }
      RemoveHyphens(a + "-" + b + "-" + c + "-" + d) + re;
    == { DropHyphen(a + "-" + b + "-" + c, d); }
      RemoveHyphens(a + "-" + b + "-" + c) + rd + re;
    == { DropHyphen(a + "-" + b, c); }
      RemoveHyphens(a + "-" + b) + rc + rd + re;
    == { DropHyphen(a, b); }
      ra + rb + rc + rd + re;
    == { RemoveHyphensAppend(a, b); }
      RemoveHyphens(a + b) + rc + rd + re;
    == { RemoveHyphensAppend(a + b, c); }
      RemoveHyphens(a + b + c) + rd + re;
    == { RemoveHyphensAppend(a + b + c, d); }
      RemoveHyphens(a + b + c + d) + re;
    == { RemoveHyphensAppend(a + b + c + d, e); }
      RemoveHyphens(a + b + c + d + e);
    }
  }

  /** Dropping the hyphens of the grouped form gives back the digits. */
  lemma UngroupGrouped(h: string)
    requires |h| == 32
    ensures RemoveHyphens(Grouped(h)) == RemoveHyphens(h)
  {
    var a, b, c, d, e := h[..8], h[8..12], h[12..16], h[16..20], h[20..];
    DropFourHyphens(a, b, c, d, e);
    assert a + b + c + d + e == h;
  }

  /** The PostgreSQL text form `str(u)` parses back to `u` as well. */
  lemma ParseCanonical(u: Uuid)
    ensures ParseUuid(Canonical(u)) == Success(u)
  {
    UngroupGrouped(Hex32(u));
    ParseHex32(u);
  }

}

=== FILE: wrappers.dfy ===
/** Failure-compatible wrappers shared by every module of the relay model. */
module Wrappers {

  /** An optional value: the model's stand-in for Python's `None`. */
  datatype Option<+T> = None | Some(value: T) {

    /** The wrapped value, or `default` when there is none. */
    function GetOr(default: T): T {
      match this
      case Some(v) => v
      case None => default
    }
  }

  /** Either a value or the error that stopped its computation. */
  datatype Result<+R, +E> = Success(value: R) | Failure(error: E)
}
